=== FILE: README.md ===
# Easy CodeSnap: host/webview protocol and settings synchronisation

This project models the message protocol and configuration logic of the Easy
CodeSnap VS Code extension in Dafny. The extension has two parts. The webview
renders a code snapshot. The host owns the settings, the editor, the clipboard
and the file system. The two exchange JSON messages. The model covers these
pieces:

- clipboard-to-HTML extraction in the webview (two copies);
- the host's two message dispatchers: the legacy `switch` and the current
  `SnapActions` class;
- the update payload (`getConfig`, two versions) and its wire type;
- save-as-default, a diff-and-patch of the session config into the settings store;
- the settings-import command;
- the webview controls that edit the session config.

The host's collaborators are abstract values:
- the settings store is a map per section;
- the active editor is an optional record;
- the save dialog's answer and the file write's fate are inputs;
- the SVG minifier is a function parameter.

Every handler is a pure function. It returns the new state and the effects it
performed, in order: posted messages, notices, settings writes and command calls.

Modules, one per source file or concern:

- `Strings` (`strings.dfy`): JavaScript `split`/`join` on one character, and
  `path.split("/").pop()`.
- `JsValues` (`values.dfy`): JavaScript values with `===`, truthiness, `??` and
  `Number(string)`.
- `Settings` (`settings.dfy`): the single-layer settings store and sequential writes.
- `Reconciler` (`reconciler.dfy`): the save-as-default and import algorithms.
- `ContentExtraction`, `LegacyContent` (`content.dfy`): `getClipboardHtml` and
  `ContentManager`, current and legacy.
- `UpdatePayload` (`payload.dfy`): the editor state, `hasOneSelection`, the update
  wire type and both `getConfig` versions.
- `Effects` (`effects.dfy`): the observable effects.
- `HostExtension` (`host.dfy`): the legacy host, with its switch, the selection
  listener and `saveImage`.
- `SnapActions` (`snapactions.dfy`): the current host's per-message handlers.
- `ImportSettingsCommand` (`import.dfy`): the import command.
- `SessionConfigEvents` (`sessionconfig.dfy`): the webview's one-time-config listeners.

Modelling choices:
- Each settings section is one map from name to effective value. Writing
  `undefined` clears a key. Every write records its scope; both algorithms write
  at Global scope.
- Save-as-default and import compare against one snapshot of the section. They
  then apply their writes in list order.
- `!==` is strict inequality. `NaN` is unequal to itself. An object is unequal to
  everything, because every object compared here is a fresh copy.
- The recognised setting names (`extensionSettingsNames`, `CodeSnapConfigNames`)
  are a parameter `names`. The file that defines them is not part of this model.
- `getSettings` is taken to return, for each requested name, the section's
  effective value. Its file is not part of this model.
- `setSessionConfig` is taken to be a shallow merge in which the patch wins. Its
  file is not part of this model.
- `SnapActions` imports `hasOneSelection` from the utility module
  (src/commands/snap/SnapActions.ts:5), which is not part of this model. The model
  uses the definition at src/extension.ts:70-71 for both hosts.

Behaviour worth noting:
- In the legacy host, a selection change pushes a `text` update exactly when it
  leaves one non-empty selection, even the first time. Only `ready` pushes a `both`
  update.
- The legacy switch has no `open-settings` or `copy-svg` case. Those types get the
  unknown-type error there. Only `SnapActions` handles them.
- A cancelled save dialog writes nothing and shows nothing. It does, however,
  clear the remembered location, so the next dialog suggests none.
- `save` with a format other than `svg` or `png` still flashes and then calls no
  saver. It is not rejected.
- The import reads the same section it writes (see Findings).
- `copy-svg` puts whatever `reduceSVG` returns on the clipboard. `reduceSVG` is a
  function parameter, and no property of it is assumed.

## Model

| member | source | states |
|---|---|---|
| Strings.Split | src/webview/ContentManager.ts:6-8 | splitting on one character yields one part more than there are separators, and no part contains the separator |
| Strings.JoinSplit | src/webview/ContentManager.ts:6-8 | joining the parts of a split with the separator gives back the original text |
| Strings.SplitJoin | src/webview/ContentManager.ts:6-8 | separator-free parts, once joined, split back into exactly those parts, so a split's parts are the only such decomposition |
| Strings.LastSegmentIsLongestSuffix | src/commands/snap/getConfig.ts:24-25 | `split("/").pop()` is a slash-free suffix of the path that is either the whole path or starts right after a `/` |
| JsValues.StrictEquals | src/commands/snap/SnapActions.ts:63 | two strictly equal values are the same value; `NaN` and objects are never strictly equal, so the `!==` guard at src/extension.ts:102 lets them through |
| JsValues.ToNumber | src/webview/oneTimeConfig.ts:67 | `Number(value)` is a non-negative number, and it is `NaN` exactly when some character is not a decimal digit |
| JsValues.ToNumberOfDecimal | src/webview/oneTimeConfig.ts:65-69 | `Number` reads back the decimal notation of every natural number |
| Settings.Put | src/commands/snap/SnapActions.ts:65-69 | after a settings update the key reads as the written value, no other key changes, and no explicit `undefined` is stored |
| Settings.GetSettings | src/commands/snap/getConfig.ts:13-16 | the settings object has exactly the requested names, each with the section's value |
| Reconciler.SaveAsDefault | src/commands/snap/SnapActions.ts:60-71 | the writes are all at Global scope, carry the session value, and cover exactly the recognised names present in the session config whose value is `!==` to the stored one |
| Reconciler.SaveAsDefaultStore | src/commands/snap/SnapActions.ts:60-71 | afterwards every recognised name present in the session config reads as the session value, and every other key is unchanged |
| Reconciler.NoChangesNoWrites | src/commands/snap/SnapActions.ts:61-64 | when every recognised session value is already stored, nothing is written |
| Reconciler.SaveAsDefaultIdempotent | src/commands/snap/SnapActions.ts:61-73 | saving the same session config a second time writes nothing, unless a value is `NaN` or an object |
| Reconciler.SaveAsDefaultRewritesNaN | src/commands/snap/SnapActions.ts:62-63 | a `NaN` session value is written again on every save, because `NaN !== NaN` |
| Reconciler.SaveAsDefaultExample | src/extension.ts:101-109 | stored {a:1,b:2} with session {a:1,b:3,c:4} and recognised {a,b} writes only b:=3 |
| Reconciler.ImportWrites | src/commands/ImportSettings.ts:13-19 | one Global write per listed name, in order, with no diff check; the value is the source's unless that is `null` or `undefined`, else the target's |
| Reconciler.ImportCopiesFalsy | src/commands/ImportSettings.ts:16 | falsy source values `false`, `0` and `""` are copied, not replaced |
| Reconciler.ImportSameSectionUnchanged | src/commands/ImportSettings.ts:9-19 | reading and writing one section, the import leaves the store exactly as it was |
| Reconciler.ImportIdempotent | src/commands/ImportSettings.ts:13-19 | importing twice leaves the same store as importing once |
| ContentExtraction.GetClipboardHtml | src/webview/ContentManager.ts:1-4 | non-empty HTML is returned verbatim |
| ContentExtraction.BlocksAppend | src/webview/ContentManager.ts:9-10 | mapping lines to blocks and joining them with `""` distributes over concatenation: each line becomes exactly one block, in its own position |
| ContentExtraction.BlocksSnoc | src/webview/ContentManager.ts:9-10 | appending one line appends exactly its `<div>` block |
| ContentExtraction.ExtractJoinedLines | src/webview/ContentManager.ts:6-12 | plain text built from newline-free lines extracts to exactly those lines as `<div>` blocks, in order, inside an outer `<div>` |
| ContentExtraction.PlainTextBlocks | src/webview/ContentManager.ts:6-12 | without HTML there is one block per line (newline count plus one); the lines hold no newline and rejoin to the text |
| ContentExtraction.EmptyTextOneBlock | src/webview/ContentManager.ts:6-12 | empty plain text gives `<div><div></div></div>` |
| ContentExtraction.CarriageReturnKeptUnescaped | src/webview/ContentManager.ts:8-9 | an example of `ExtractJoinedLines`, which already covers any newline-free lines: in `"<b>\r\nx"` the `"\r"` stays in its line and the markup is inserted unescaped |
| ContentExtraction.Update | src/webview/ContentManager.ts:18-20 | an update always leaves a current value, whatever came before: the clipboard's HTML when there is some, and otherwise at least one `<div>` block inside the outer `<div>`, so the value opens with `<div><div>` and closes with `</div></div>` |
| ContentExtraction.ReplayCurrent | src/webview/ContentManager.ts:15-24 | `current` is `undefined` before any update and otherwise the extraction of the latest update |
| LegacyContent.GetClipboardHtml | webview/src/contentManager.js:1-10 | the legacy extraction agrees with the current one on every clipboard |
| LegacyContent.Update | webview/src/contentManager.js:12-24 | the legacy manager starts with no content (`LegacyContent.Initial`, shared with the current one), and after an update its `current` is that clipboard's extraction |
| UpdatePayload.HasOneSelection | src/extension.ts:70-71 | one selection exactly when there is a single selection and it is the only non-empty one |
| UpdatePayload.WireType | src/extension.ts:79 | the kind `both` is sent as `"update"`, `config` as `"update-config"` and `text` as `"update-text"`, each only for that kind |
| UpdatePayload.WireTypeRoundTrip | src/extension.ts:79 | each wire type reads back as the kind that produced it |
| UpdatePayload.EditorSettings | src/commands/snap/getConfig.ts:6-11 | the editor settings are `fontLigatures` and `tabSize`, with the active editor's own tab size replacing the setting |
| UpdatePayload.Spread | src/commands/snap/getConfig.ts:30-33 | object spread: the result has every key of the three objects, and on a shared key the later object wins |
| UpdatePayload.GetConfig | src/commands/snap/getConfig.ts:30-39 | merge order: extension settings override editor settings, and `startLine` and `templates` override both |
| UpdatePayload.GetConfigWithoutEditor | src/commands/snap/getConfig.ts:18-28 | with no editor, `startLine` is 0 and the file name and path templates are `""` |
| UpdatePayload.GetConfigWithEditor | src/commands/snap/getConfig.ts:8-28 | with an editor, `startLine` is the selection's start line, `filePath` is the document path, `fileName` its last segment, and the editor's tab size is used |
| UpdatePayload.TemplatesWorkspace | src/commands/snap/getConfig.ts:37 | the workspace template is the workspace name, or `""` when there is none |
| UpdatePayload.LegacyGetConfig | src/extension.ts:26-31 | legacy merge order: legacy-section settings over editor settings, then `startLine` and `windowTitle` over both |
| UpdatePayload.LegacyGetConfigTitle | src/extension.ts:17-24 | with no editor, `startLine` is 0 and the title is `""`; with one, the title is the workspace name (`"undefined"` if none), `" - "`, and the file name |
| HostExtension.Classify | src/extension.ts:87-120 | a message type falls to the default case exactly when it is none of `save`, `copied`, `update-config`, `save-config`, `ready` |
| HostExtension.InitialState | src/extension.ts:54 | the first save dialog suggests a location whose file name is `code.png` |
| HostExtension.Update | src/extension.ts:76-82 | an update runs the highlighted-copy command, then posts one message carrying every key of the legacy payload with its value, and the kind's wire type under `type` unless a payload key `type` overrides it |
| HostExtension.SaveImage | src/extension.ts:54-68 | the dialog suggests the remembered location; its answer is remembered even on cancel; a cancel writes nothing; a chosen path is written; the notice `Image saved on: <path>` appears exactly when a chosen path was written successfully |
| HostExtension.SaveDialogRemembersResult | src/extension.ts:54-61 | the next save dialog suggests exactly what the previous one returned, including nothing after a cancel |
| HostExtension.UnknownTypeErrorNamesType | src/extension.ts:119 | the unknown-type error message contains the type string |
| HostExtension.HandleMessage | src/extension.ts:86-121 | per case: unknown shows one error and nothing else; `save` flashes exactly once and then runs the dialog flow of `saveImage`, with its effects and state; `copied` shows one notice; `update-config` posts a config update; `ready` posts a `both` update only for one non-empty selection; `save-config` ends with its notice |
| HostExtension.SaveConfigHandler | src/extension.ts:98-113 | the effects are Global writes of recognised names to the legacy section followed by one notice; afterwards recognised names present in the config hold its values, all other keys and all other sections are unchanged |
| HostExtension.OnSelectionChange | src/extension.ts:124-126 | a selection change posts an update, of type `"update-text"`, exactly when there is one non-empty selection |
| HostExtension.UnknownTypeOnlyErrors | src/extension.ts:118-120 | an unrecognised type yields exactly one error naming it, leaves the state unchanged, and runs no other handler |
| HostExtension.SaveConfigWritesChanged | src/extension.ts:98-111 | `save-config` writes at Global scope exactly the recognised, present, changed names with the session values, and ends with one notice even when nothing was written |
| SnapActions.SaveAction | src/commands/snap/SnapActions.ts:30-39 | one flash first; `svg` reaches only the SVG saver, `png` only the PNG saver, and any other format no saver |
| SnapActions.ReadyAgreesWithLegacy | src/commands/snap/SnapActions.ts:45-50 | the current `ready` handler acts exactly when the legacy one at src/extension.ts:114-117 does; then the legacy one posts a `both` payload and the current one requests a `both` update of the same document |
| SnapActions.SaveConfigAction | src/commands/snap/SnapActions.ts:56-74 | the effects are Global writes of recognised names to the current section followed by one notice; afterwards recognised names present in the config hold its values, all other keys and all other sections are unchanged |
| SnapActions.Handle | src/commands/snap/SnapActions.ts:41-82 | only `save-config` changes settings; `update-config` requests a config update with no URI; `copy-svg` writes the reduced SVG to the clipboard once; `open-settings` runs the settings command |
| SnapActions.SaveConfigResult | src/commands/snap/SnapActions.ts:60-71 | after `save-config`, recognised present names hold the session value, other keys and other sections are unchanged |
| SnapActions.SaveConfigOnlyRecognised | src/commands/snap/SnapActions.ts:60-63 | `save-config` never writes a name outside the recognised list, and every write is Global in the current section |
| SnapActions.SaveConfigTwice | src/commands/snap/SnapActions.ts:61-73 | repeating `save-config` with the same config writes nothing and still shows the notice, unless a value is `NaN` or an object |
| SnapActions.SaveCallsOneSaver | src/commands/snap/SnapActions.ts:33-38 | the set of saver calls is the SVG saver alone for `svg`, the PNG saver alone for `png`, and empty otherwise |
| ImportSettingsCommand.Exec | src/commands/ImportSettings.ts:8-20 | every listed name gets one Global write, in order, of `source.get(name) ?? target.get(name)` |
| ImportSettingsCommand.ExecChangesNothing | src/commands/ImportSettings.ts:9-19 | because source and target are the same section, no section's contents change |
| ImportSettingsCommand.ExecIdempotent | src/commands/ImportSettings.ts:13-19 | importing twice gives the same settings as importing once |
| ImportSettingsCommand.ExecIgnoresLegacy | src/commands/ImportSettings.ts:9-16 | a legacy value never reaches the current section as written; the legacy-reading import does copy it |
| ImportSettingsCommand.ExecFromLegacy | src/commands/ImportSettings.ts:8-20 | the import reading its source from the legacy section, with one Global write per listed name |
| ImportSettingsCommand.ExecFromLegacyCopies | src/commands/ImportSettings.ts:13-19 | after the legacy-reading import, listed names hold the legacy value when it is defined and their own otherwise; unlisted names and the legacy section are untouched |
| ImportSettingsCommand.ExecFromLegacyKeepsWellFormed | src/commands/ImportSettings.ts:13-19 | the corrected import never leaves an explicit `undefined` in the current section: a name whose `??` still yields `undefined` is cleared |
| SessionConfigEvents.SetSessionConfig | src/webview/oneTimeConfig.ts:34-36 | the patch's keys take the patch's values and every other key keeps its value |
| SessionConfigEvents.Handle | src/webview/oneTimeConfig.ts:72-78 | reset posts exactly `{type:"update-config"}` and save posts `{type:"save-config", config}` with the current session; neither changes the UI, and no other control posts |
| SessionConfigEvents.CheckboxSetsOnlyItsKey | src/webview/oneTimeConfig.ts:30-39 | a checkbox sets only the key its `data-configname` names, to its checked state, and runs its updater once |
| SessionConfigEvents.SelectsSetOnlyTheirKey | src/webview/oneTimeConfig.ts:53-63 | the shutter-action and target selects each set only their own key, to the selected value |
| SessionConfigEvents.RoundingLevelIsNumber | src/webview/oneTimeConfig.ts:65-69 | the rounding-level select stores the number its value denotes and runs the variable updater |
| SessionConfigEvents.LockTwice | src/webview/oneTimeConfig.ts:80-83 | a lock click stores the negated truthiness of `isLocked`; two clicks restore a boolean value |
| SessionConfigEvents.LinkClickConsistent | src/webview/oneTimeConfig.ts:85-94 | after a link click, `data-state` is `"linked"` exactly when the session's `isLinked` is true |
| SessionConfigEvents.RunKeepsLinkConsistent | src/webview/oneTimeConfig.ts:85-94 | that agreement survives any sequence of events in which no checkbox names `isLinked` |

## Left out

- `createPanel`, `readHtml`, `activate`, `deactivate`, the status-bar button and the
  settings-opening command are registration and I/O glue. Only the settings command
  name that `open-settings` runs is kept.
- The PNG/SVG savers, `writeFile` and base64 decoding are file I/O. So is the save
  dialog: its answer and the write's success are inputs. The first suggested
  location is `home + "/Desktop/code.png"`, without `path.resolve` normalisation.
- `reduceSVG` is a function parameter, because its source is not part of this model.
- `Strings.LastSegmentAfterSlash` and `HostExtension.InitialState`: `path.resolve` is
  modelled as plain concatenation, so a home directory that ends in `/` is not
  normalised.
- The file that routes a wire string to a `SnapActions` method is not part of this
  model. The class's messages are a closed datatype, so unknown types are modelled
  only for the legacy switch.
- The host's Global/Workspace layering is left out, because the store has one layer.
  So `ImportSettingsCommand.ExecChangesNothing` holds for this store only: in the
  layered host the import can copy an inherited Workspace or default value into the
  Global layer.
  `getSettings`, `setSessionConfig` and the settings-name constants are not part of
  this model (assumptions above).
- The un-awaited settings writes and the highlighted-copy command are
  asynchronous. Here they are ordered effects, applied in issue order. The same
  holds for the "Image saved on" notice: it runs in an un-awaited
  `writeFile(...).then` (src/extension.ts:64-66), so in the host it can appear after
  effects of later messages.
- DOM measurement and styling (src/webview/oneTimeConfig.ts:25-28) are left out, and
  so is what the UI updaters render. Only the fact that an updater ran is recorded.
- Messages without their payload fields are not modelled. The code shows one of
  them throwing: a `save-config` without `config` fails on `name in config`. A legacy
  `save` without `data` still shows the dialog and remembers its answer, and fails
  only in `Buffer.from` once a path is chosen. In `SnapActions` the data goes to the
  savers, whose source is not part of this model.
- JsValues.ToNumber: it follows `Number` only for the empty string and decimal digit
  strings. Whitespace trimming, signs, fractions, exponents, hex and `Infinity` give
  `NaN` here. Numbers are integers throughout, because every numeric setting in play
  is whole.
- Reconciler.SaveAsDefaultIdempotent: it holds only when no recognised session value
  is `NaN` or an object. `Reconciler.SaveAsDefaultRewritesNaN` shows the `NaN` case.
- SnapActions.SaveConfigTwice: same restriction as `SaveAsDefaultIdempotent`, for the
  same reason.
- SessionConfigEvents.LockTwice: two clicks restore the original value only when it
  was a boolean. Any other value comes back as the boolean of its truthiness, as in
  the source.
- ContentExtraction.GetClipboardHtml: its own contract states only the HTML
  pass-through. The plain-text shape is stated by `PlainTextBlocks` and
  `ExtractJoinedLines`.

## Findings

| source | as written | input that shows it | evidently intended | confidence | as-written member | corrected member |
|---|---|---|---|---|---|---|
| src/commands/ImportSettings.ts:9-11 | both the source and the target handle open `"cy-easy-codesnap"`, so the import copies every setting onto itself and changes nothing | legacy section `codesnap` with `showLineNumbers: false`, current section with `true`: afterwards the current value is still `true` (`ExecIgnoresLegacy`) | read the source from a legacy section, so that defined legacy values replace the current ones: the original extension's `codesnap`, or `easy-codesnap`, which the legacy host still reads and writes (src/extension.ts:15, src/extension.ts:99); the corrected member takes `codesnap`, and its proofs use only that the legacy section differs from the current one, so they hold for either name | medium, not executed | ImportSettingsCommand.Exec | ImportSettingsCommand.ExecFromLegacy |

=== FILE: content.dfy ===
/** The webview's clipboard-to-HTML extraction (`getClipboardHtml`) and the
    `ContentManager` that keeps the latest extraction. */
module ContentExtraction {
  import opened Wrappers
  import opened Strings

  /** What a clipboard `DataTransfer` offers: `getData("text/html")` and
      `getData("text/plain")`, each the empty string when the format is absent. */
  datatype Clip = Clip(html: string, plain: string)

  /** One line as a block: `<div>line</div>`, the text inserted unescaped. */
  function Block(line: string): string
  {
    "<div>" + line + "</div>"
  }

  /** `lines.map(Block).join("")`. */
  function Blocks(lines: seq<string>): (r: string)
    ensures |r| == 11 * |lines| + TotalLength(lines)
  {
    if |lines| == 0 then "" else Block(lines[0]) + Blocks(lines[1..])
  }

  function TotalLength(lines: seq<string>): nat
  {
    if |lines| == 0 then 0 else |lines[0]| + TotalLength(lines[1..])
  }

  /** Wrapping a list of lines wraps each part on its own: the blocks of `a + b` are
      the blocks of `a` followed by the blocks of `b`. */
  lemma {:induction false} BlocksAppend(a: seq<string>, b: seq<string>)
    ensures Blocks(a + b) == Blocks(a) + Blocks(b)
  {
    if |a| == 0 {
      assert a + b == b;
    } else {
      assert (a + b)[0] == a[0];
      assert (a + b)[1..] == a[1..] + b;
      BlocksAppend(a[1..], b);
    }
  }

  /** One line makes one block, so the blocks of any list are its lines' blocks
      concatenated in order. */
  lemma BlocksSnoc(lines: seq<string>, line: string)
    ensures Blocks(lines + [line]) == Blocks(lines) + Block(line)
  {
    BlocksAppend(lines, [line]);
    assert Blocks([line]) == Block(line) + Blocks([]);
  }

  /** `getClipboardHtml`: non-empty HTML as is; otherwise the plain text, split on
      `"\n"`, each line a block, all inside one outer `<div>`. */
  function GetClipboardHtml(clip: Clip): (r: string)
    ensures |clip.html| > 0 ==> r == clip.html
  {
    if |clip.html| > 0 then clip.html
    else
      var lines := Split(clip.plain, '\n');
      "<div>" + Blocks(lines) + "</div>"
  }

  /** Text built from newline-free lines extracts to exactly those lines as blocks,
      in order, one block per line. */
  lemma ExtractJoinedLines(lines: seq<string>)
    requires |lines| >= 1
    requires forall i :: 0 <= i < |lines| ==> '\n' !in lines[i]
    ensures GetClipboardHtml(Clip("", Join(lines, '\n'))) == "<div>" + Blocks(lines) + "</div>"
  {
    SplitJoin(lines, '\n');
  }

  /** Without HTML, the output has one block per line of the plain text, which is
      one more than the number of newlines; the lines hold no newline and rejoin to
      the text, so the blocks keep the text's order. */
  lemma PlainTextBlocks(text: string)
    ensures var lines := Split(text, '\n');
      && |lines| == Count(text, '\n') + 1
      && (forall i :: 0 <= i < |lines| ==> '\n' !in lines[i])
      && Join(lines, '\n') == text
      && GetClipboardHtml(Clip("", text)) == "<div>" + Blocks(lines) + "</div>"
  {
    JoinSplit(text, '\n');
  }

  /** Empty plain text gives a single empty block. */
  lemma EmptyTextOneBlock()
    ensures GetClipboardHtml(Clip("", "")) == "<div><div></div></div>"
  {
  }

  /** Only `"\n"` splits: a `"\r"` stays at the end of its line, and markup in the text
      is inserted unescaped. */
  lemma CarriageReturnKeptUnescaped(text: string)
    requires text == "<b>\r\nx"
    ensures GetClipboardHtml(Clip("", text)) == "<div>" + Block("<b>\r") + Block("x") + "</div>"
  {
    var lines := ["<b>\r", "x"];
    assert text == Join(lines, '\n') by {
      assert Join(lines, '\n') == lines[0] + ['\n'] + Join(lines[1..], '\n');
    }
    assert Blocks(lines) == Block("<b>\r") + Block("x") + Blocks([]);
    ExtractJoinedLines(lines);
  }

  /** `ContentManager`: its private field holds the latest extraction and is
      `undefined` until the first update. */
  datatype ContentManager = ContentManager(current: Option<string>)

  const Initial := ContentManager(None)

  /** Without HTML the extraction opens with the outer `<div>` and its first line's
      block, and closes with its last line's block and the outer `</div>`. */
  // The tags come in as parameters pinned by the requires, so that the verifier does
  // not unfold the string literals character by character inside the proof.
  lemma PlainTextFrame(plain: string, o: string, c: string)
    requires o == "<div>" && c == "</div>"
    ensures var v := GetClipboardHtml(Clip("", plain));
      && IsPrefix(o + o, v)
      && |v| >= |c + c|
      && v[|v| - |c + c|..] == c + c
  {
    var lines := Split(plain, '\n');
    var b := Blocks(lines);
    assert GetClipboardHtml(Clip("", plain)) == o + b + c;
    BlocksStart(lines, o, c);
    BlocksEnd(lines, o, c);
    Enclosed(o, b, c);
  }

  /** Blocks of at least one line open with a block's opening tag. */
  lemma BlocksStart(lines: seq<string>, o: string, c: string)
    requires |lines| >= 1
    requires o == "<div>" && c == "</div>"
    ensures IsPrefix(o, Blocks(lines))
  {
    var rest := Blocks(lines[1..]);
    assert Blocks(lines) == o + (lines[0] + c + rest);
    PrefixOf(o, lines[0] + c + rest);
  }

  /** Blocks of at least one line close with a block's closing tag. */
  lemma BlocksEnd(lines: seq<string>, o: string, c: string)
    requires |lines| >= 1
    requires o == "<div>" && c == "</div>"
    ensures |Blocks(lines)| >= |c| && Blocks(lines)[|Blocks(lines)| - |c|..] == c
  {
    var init, last := lines[..|lines| - 1], lines[|lines| - 1];
    assert lines == init + [last];
    BlocksSnoc(init, last);
    assert Blocks(lines) == (Blocks(init) + o + last) + c;
    SuffixOf(Blocks(init) + o + last, c);
  }

  /** Wrapping a text that opens with `o` and closes with `c` in `o`…`c` doubles both. */
  lemma Enclosed(o: string, b: string, c: string)
    requires IsPrefix(o, b)
    requires |b| >= |c| && b[|b| - |c|..] == c
    ensures var v := o + b + c;
      && IsPrefix(o + o, v)
      && |v| >= |c + c|
      && v[|v| - |c + c|..] == c + c
  {
    var v := o + b + c;
    assert v[..|o + o|] == o + b[..|o|];
    assert v[|v| - |c + c|..] == b[|b| - |c|..] + c;
  }

  lemma PrefixOf(p: string, m: string)
    ensures IsPrefix(p, p + m)
  {
    assert (p + m)[..|p|] == p;
  }

  lemma SuffixOf(m: string, q: string)
    ensures (m + q)[|m + q| - |q|..] == q
  {
  }

  /** `ContentManager.update(data)`. */
  function Update(cm: ContentManager, clip: Clip): (r: ContentManager)
    ensures r.current.Some?
    ensures |clip.html| > 0 ==> r.current.value == clip.html
    ensures |clip.html| == 0 ==>
      && IsPrefix("<div>" + "<div>", r.current.value)
      && |r.current.value| >= |"</div>" + "</div>"|
      && r.current.value[|r.current.value| - |"</div>" + "</div>"|..] == "</div>" + "</div>"
  {
    PlainTextFrame(clip.plain, "<div>", "</div>");
    ContentManager(Some(GetClipboardHtml(clip)))
  }

  /** A sequence of updates applied in order from the initial manager. */
  function Replay(clips: seq<Clip>): ContentManager
    decreases |clips|
  {
    if |clips| == 0 then Initial else Update(Replay(clips[..|clips| - 1]), clips[|clips| - 1])
  }

  /** `current` is the extraction of the most recent update, and `undefined` when
      there has been none. */
  lemma ReplayCurrent(clips: seq<Clip>)
    ensures |clips| == 0 ==> Replay(clips).current == None
    ensures |clips| > 0 ==> Replay(clips).current == Some(GetClipboardHtml(clips[|clips| - 1]))
  {
  }
}

/** The legacy webview's copy of `getClipboardHtml` and its `ContentManager` instance,
    written as a loop over the lines. */
module LegacyContent {
  import opened Wrappers
  import opened Strings
  import ContentExtraction

  /** `getClipboardHtml` of the legacy webview; it returns what the current webview's
      version returns on every input. */
  method GetClipboardHtml(clip: ContentExtraction.Clip) returns (r: string)
    ensures r == ContentExtraction.GetClipboardHtml(clip)
  {
    if |clip.html| > 0 {
      return clip.html;
    }
    var lines := Split(clip.plain, '\n');
    var text := "";
    var i := 0;
    while i < |lines|
      invariant 0 <= i <= |lines|
      invariant text + ContentExtraction.Blocks(lines[i..]) == ContentExtraction.Blocks(lines)
    {
      assert lines[i..][1..] == lines[i + 1..];
      var block := "<div>" + lines[i] + "</div>";
      assert ContentExtraction.Blocks(lines[i..]) == block + ContentExtraction.Blocks(lines[i + 1..]);
      text := text + block;
      i := i + 1;
    }
    r := "<div>" + text + "</div>";
  }

  /** `new ContentManager()`: the legacy manager starts with no content, like the
      current one. */
  const Initial: ContentExtraction.ContentManager := ContentExtraction.Initial

  /** `contentManager.update(data)` on the legacy manager: afterwards `current` is the
      shared extraction of `data`. */
  method Update(cm: ContentExtraction.ContentManager, clip: ContentExtraction.Clip)
    returns (cm': ContentExtraction.ContentManager)
    ensures cm'.current == Some(ContentExtraction.GetClipboardHtml(clip))
  {
    var html := GetClipboardHtml(clip);
    cm' := ContentExtraction.ContentManager(Some(html));
  }
}

=== FILE: effects.dfy ===
/** The observable effects of the host's message handlers, in the order they happen. */
module Effects {
  import opened Wrappers
  import opened JsValues
  import opened Settings
  import opened UpdatePayload

  datatype Effect =
    /** `panel.webview.postMessage(message)`, host to webview. */
    | PostMessage(message: map<string, Value>)
    /** `showInformationMessage(text)`. */
    | ShowInfo(text: string)
    /** `showErrorMessage(text)`. */
    | ShowError(text: string)
    /** `getConfiguration(section).update(write.name, write.value, write.scope)`. */
    | UpdateSetting(section: string, write: Write)
    /** `showSaveDialog` with the given default location. */
    | ShowSaveDialog(defaultUri: Option<string>)
    /** `writeFile(path, Buffer.from(data, "base64"))`. */
    | WriteFile(path: string, base64Data: string)
    /** `commands.executeCommand(command)`. */
    | ExecuteCommand(command: string)
    /** The SVG saver called with the artifact. */
    | SaveSvg(data: string)
    /** The PNG saver called with the artifact. */
    | SavePng(data: string)
    /** The injected `update(kind, editorUri)` callback. */
    | RequestUpdate(kind: UpdateKind, editorUri: Option<string>)
    /** `env.clipboard.writeText(text)`. */
    | WriteClipboard(text: string)

  /** `{type: "flash"}`. */
  const Flash := PostMessage(map["type" := Str("flash")])

  /** One settings update per write, all to the same section. */
  function UpdateEffects(section: string, writes: seq<Write>): (effects: seq<Effect>)
    ensures |effects| == |writes|
    ensures forall i :: 0 <= i < |writes| ==> effects[i] == UpdateSetting(section, writes[i])
  {
    seq(|writes|, i requires 0 <= i < |writes| => UpdateSetting(section, writes[i]))
  }

  /** Number of posts of `{type: "flash"}`. */
  function FlashCount(effects: seq<Effect>): nat
  {
    if |effects| == 0 then 0
    else (if effects[0] == Flash then 1 else 0) + FlashCount(effects[1..])
  }
}

=== FILE: host.dfy ===
/** The legacy host (the extension's entry file): the message switch of the snapshot
    panel, the selection listener, the save-image flow and its remembered location. */
module HostExtension {
  import opened Wrappers
  import opened Strings
  import opened JsValues
  import opened Settings
  import opened UpdatePayload
  import opened Effects
  import Reconciler

  /** A message from the webview, destructured as `{ type, data, config }`. */
  datatype Message = Message(wireType: string, data: string, config: map<string, Value>)

  /** The cases of the switch; everything else falls to `default`. */
  datatype Action = Save | Copied | UpdateConfig | SaveConfig | Ready | Unknown

  function Classify(t: string): (a: Action)
    ensures a == Unknown <==> t !in {"save", "copied", "update-config", "save-config", "ready"}
  {
    if t == "save" then Save
    else if t == "copied" then Copied
    else if t == "update-config" then UpdateConfig
    else if t == "save-config" then SaveConfig
    else if t == "ready" then Ready
    else Unknown
  }

  /** The host's state across messages: what it can see, and the location the next
      save dialog suggests. */
  datatype HostState = HostState(host: Host, lastUsedImageUri: Option<string>)

  /** The first suggestion: `code.png` on the user's desktop. */
  function InitialState(host: Host, home: string): (s: HostState)
    ensures s.host == host
    ensures s.lastUsedImageUri.Some? && LastSegment(s.lastUsedImageUri.value) == "code.png"
  {
    LastSegmentAfterSlash(home + "/Desktop", "code.png");
    assert home + "/Desktop" + "/" + "code.png" == home + "/Desktop/code.png";
    HostState(host, Some(home + "/Desktop/code.png"))
  }

  datatype Outcome = Outcome(state: HostState, effects: seq<Effect>)

  const CopyWithHighlighting := "editor.action.clipboardCopyWithSyntaxHighlightingAction"

  /** `update(kind)`: copy the selection with highlighting, then post the payload with
      its type in front, so that a payload key named `type` would win. */
  function Update(h: Host, names: seq<string>, kind: UpdateKind): (effects: seq<Effect>)
    ensures |effects| == 2 && effects[0] == ExecuteCommand(CopyWithHighlighting)
    ensures effects[1].PostMessage?
    ensures "type" in effects[1].message
    ensures "type" !in names ==> effects[1].message["type"] == Str(WireType(kind))
    ensures var payload := LegacyGetConfig(h, names);
      forall k :: k in payload ==> k in effects[1].message && effects[1].message[k] == payload[k]
  {
    var payload := LegacyGetConfig(h, names);
    assert "type" !in names ==> "type" !in payload;
    var message := map["type" := Str(WireType(kind))] + payload;
    assert "type" !in payload ==> message["type"] == Str(WireType(kind));
    [ExecuteCommand(CopyWithHighlighting), PostMessage(message)]
  }

  /** `saveImage(data)`: ask for a location, suggesting the last one; remember the
      dialog's answer whatever it is (a cancelled dialog leaves no suggestion for next
      time); write the decoded image only when a location was chosen, and confirm only
      when the write succeeds. */
  function SaveImage(st: HostState, data: string, chosen: Option<string>, writeSucceeds: bool): (o: Outcome)
    ensures o.state == st.(lastUsedImageUri := chosen)
    ensures |o.effects| >= 1 && o.effects[0] == ShowSaveDialog(st.lastUsedImageUri)
    ensures chosen.None? ==> o.effects == [ShowSaveDialog(st.lastUsedImageUri)]
    ensures chosen.Some? ==> WriteFile(chosen.value, data) in o.effects
    ensures forall e :: e in o.effects ==> !e.UpdateSetting? && e != Flash
    ensures (exists i :: 0 <= i < |o.effects| && o.effects[i].ShowInfo?) <==> chosen.Some? && writeSucceeds
    ensures chosen.Some? && writeSucceeds ==> ShowInfo("Image saved on: " + chosen.value) in o.effects
  {
    var dialog := ShowSaveDialog(st.lastUsedImageUri);
    var effects :=
      if chosen.None? then [dialog]
      else if !writeSucceeds then [dialog, WriteFile(chosen.value, data)]
      else [dialog, WriteFile(chosen.value, data), ShowInfo("Image saved on: " + chosen.value)];
    assert chosen.Some? && writeSucceeds ==> effects[2].ShowInfo?;
    Outcome(st.(lastUsedImageUri := chosen), effects)
  }

  /** Two saves in a row: the second dialog suggests exactly what the first returned,
      including nothing after a cancel. */
  lemma SaveDialogRemembersResult(st: HostState, d1: string, d2: string, c1: Option<string>, c2: Option<string>, ok1: bool, ok2: bool)
    ensures var first := SaveImage(st, d1, c1, ok1);
      SaveImage(first.state, d2, c2, ok2).effects[0] == ShowSaveDialog(c1)
  {
  }

  /** The error shown for a message type the switch does not know. */
  function UnknownTypeError(t: string): string
  {
    "Easy CodeSnap \U{1F4F8}: Unknown shutterAction \"" + t + "\""
  }

  /** The error text contains the unknown type verbatim. */
  lemma UnknownTypeErrorNamesType(t: string)
    ensures Contains(UnknownTypeError(t), t)
  {
    var e := UnknownTypeError(t);
    var prefix := "Easy CodeSnap \U{1F4F8}: Unknown shutterAction \"";
    assert IsPrefix(t, e[|prefix|..]);
  }

  /** The panel's `onDidReceiveMessage` switch. `names` is the list of recognised
      extension settings; `chosen` and `writeSucceeds` are the save dialog's answer
      and the file write's fate, consulted only by `save`. */
  function HandleMessage(st: HostState, names: seq<string>, msg: Message, chosen: Option<string>, writeSucceeds: bool): (o: Outcome)
    ensures Classify(msg.wireType) == Unknown ==>
      o.state == st && o.effects == [ShowError(UnknownTypeError(msg.wireType))]
    ensures Classify(msg.wireType) == Save ==>
      |o.effects| >= 2 && o.effects[0] == Flash && FlashCount(o.effects) == 1
      && o.state.lastUsedImageUri == chosen
    ensures Classify(msg.wireType) == Save ==>
      var saved := SaveImage(st, msg.data, chosen, writeSucceeds);
      o.state == saved.state && o.effects == [Flash] + saved.effects
    ensures Classify(msg.wireType) == Copied ==>
      o.state == st && o.effects == [ShowInfo("Image copied to clipboard!")]
    ensures Classify(msg.wireType) == UpdateConfig ==>
      o.state == st && o.effects == Update(st.host, names, Config)
    ensures Classify(msg.wireType) == Ready ==>
      o.state == st
      && (var e := st.host.editor;
          o.effects == if e.Some? && HasOneSelection(e.value.selections) then Update(st.host, names, Both) else [])
    ensures Classify(msg.wireType) == SaveConfig ==>
      && |o.effects| >= 1
      && o.effects[|o.effects| - 1] == ShowInfo("Settings saved as default!")
      && o.state.lastUsedImageUri == st.lastUsedImageUri
      && o.state.host.editor == st.host.editor
    ensures Classify(msg.wireType) != Save ==> o.state.lastUsedImageUri == st.lastUsedImageUri
  {
    match Classify(msg.wireType)
    case Save =>
      var saved := SaveImage(st, msg.data, chosen, writeSucceeds);
      NoFlashAfter(saved.effects);
      Outcome(saved.state, [Flash] + saved.effects)
    case Copied =>
      Outcome(st, [ShowInfo("Image copied to clipboard!")])
    case UpdateConfig =>
      Outcome(st, Update(st.host, names, Config))
    case SaveConfig =>
      var (settings', effects) := SaveConfigHandler(st.host.settings, names, msg.config);
      Outcome(st.(host := st.host.(settings := settings')), effects)
    case Ready =>
      var e := st.host.editor;
      Outcome(st, if e.Some? && HasOneSelection(e.value.selections) then Update(st.host, names, Both) else [])
    case Unknown =>
      Outcome(st, [ShowError(UnknownTypeError(msg.wireType))])
  }

  lemma {:induction false} NoFlashAfter(effects: seq<Effect>)
    requires forall e :: e in effects ==> e != Flash
    ensures FlashCount(effects) == 0
  {
    if |effects| > 0 {
      assert effects[0] in effects;
      assert forall e :: e in effects[1..] ==> e in effects;
      NoFlashAfter(effects[1..]);
    }
  }

  /** The `save-config` case: diff the session config against the legacy section,
      write the changes at Global scope, then confirm, even when nothing changed. */
  function SaveConfigHandler(settings: Configuration, names: seq<string>, config: map<string, Value>): (r: (Configuration, seq<Effect>))
    ensures |r.1| >= 1 && r.1[|r.1| - 1] == ShowInfo("Settings saved as default!")
    ensures forall i :: 0 <= i < |r.1| - 1 ==>
      r.1[i].UpdateSetting? && r.1[i].section == LegacyNamespace && r.1[i].write.scope == Global && r.1[i].write.name in names
    ensures forall k :: k in names && k in config ==> Get(Section(r.0, LegacyNamespace), k) == config[k]
    ensures forall k :: k !in names || k !in config ==>
      Get(Section(r.0, LegacyNamespace), k) == Get(Section(settings, LegacyNamespace), k)
    ensures forall section :: section != LegacyNamespace ==> Section(r.0, section) == Section(settings, section)
  {
    var stored := Section(settings, LegacyNamespace);
    var writes := Reconciler.SaveAsDefault(names, config, stored);
    Reconciler.SaveAsDefaultStoreAll(names, config, stored);
    assert forall i :: 0 <= i < |writes| ==> writes[i] in writes;
    (settings[LegacyNamespace := ApplyWrites(stored, writes)],
     UpdateEffects(LegacyNamespace, writes) + [ShowInfo("Settings saved as default!")])
  }

  /** The selection listener: a change to exactly one non-empty selection pushes a
      text update; any other change pushes nothing. */
  function OnSelectionChange(h: Host, names: seq<string>, selections: seq<Selection>): (effects: seq<Effect>)
    ensures |effects| == 0 || |effects| == 2
    ensures |effects| > 0 <==> HasOneSelection(selections)
    ensures |effects| > 0 && "type" !in names ==> effects[1].PostMessage? && "type" in effects[1].message && effects[1].message["type"] == Str("update-text")
  {
    if HasOneSelection(selections) then Update(h, names, Text) else []
  }

  /** An unknown message type shows one error naming it and runs no other handler:
      no flash, no settings write, no post, no dialog. */
  lemma UnknownTypeOnlyErrors(st: HostState, names: seq<string>, msg: Message, chosen: Option<string>, ok: bool)
    requires msg.wireType !in {"save", "copied", "update-config", "save-config", "ready"}
    ensures var o := HandleMessage(st, names, msg, chosen, ok);
      && o.state == st
      && |o.effects| == 1
      && o.effects[0].ShowError?
      && Contains(o.effects[0].text, msg.wireType)
  {
    UnknownTypeErrorNamesType(msg.wireType);
  }

  /** `save-config` writes, at Global scope, exactly the recognised names whose session
      value differs from the stored one, then shows one confirmation, also when
      nothing changed. */
  lemma SaveConfigWritesChanged(st: HostState, names: seq<string>, msg: Message, chosen: Option<string>, ok: bool)
    requires msg.wireType == "save-config"
    ensures |HandleMessage(st, names, msg, chosen, ok).effects| >= 1
    ensures var o := HandleMessage(st, names, msg, chosen, ok);
      o.effects[|o.effects| - 1] == ShowInfo("Settings saved as default!")
    ensures var o := HandleMessage(st, names, msg, chosen, ok);
      var stored := Section(st.host.settings, LegacyNamespace);
      forall i :: 0 <= i < |o.effects| - 1 ==>
        && o.effects[i].UpdateSetting?
        && o.effects[i].section == LegacyNamespace
        && o.effects[i].write.scope == Global
        && o.effects[i].write.name in names
        && o.effects[i].write.name in msg.config
        && o.effects[i].write.value == msg.config[o.effects[i].write.name]
        && !StrictEquals(Get(stored, o.effects[i].write.name), o.effects[i].write.value)
    ensures var o := HandleMessage(st, names, msg, chosen, ok);
      var stored := Section(st.host.settings, LegacyNamespace);
      forall n :: n in names && n in msg.config && !StrictEquals(Get(stored, n), msg.config[n]) ==>
        exists i :: 0 <= i < |o.effects| - 1 && o.effects[i].write.name == n
  {
    var o := HandleMessage(st, names, msg, chosen, ok);
    var stored := Section(st.host.settings, LegacyNamespace);
    var writes := Reconciler.SaveAsDefault(names, msg.config, stored);
    assert o.effects == UpdateEffects(LegacyNamespace, writes) + [ShowInfo("Settings saved as default!")];
    forall i | 0 <= i < |o.effects| - 1
      ensures o.effects[i].UpdateSetting? && o.effects[i].section == LegacyNamespace
      ensures o.effects[i].write.name in names && o.effects[i].write.name in msg.config
      ensures o.effects[i].write.scope == Global
      ensures o.effects[i].write.value == msg.config[o.effects[i].write.name]
      ensures !StrictEquals(Get(stored, o.effects[i].write.name), o.effects[i].write.value)
    {
      assert o.effects[i] == UpdateSetting(LegacyNamespace, writes[i]);
      assert writes[i] in writes;
      assert writes[i].name in Reconciler.ChangedNames(names, msg.config, stored);
    }
    forall n | n in names && n in msg.config && !StrictEquals(Get(stored, n), msg.config[n])
      ensures exists i :: 0 <= i < |o.effects| - 1 && o.effects[i].write.name == n
    {
      assert n in Reconciler.ChangedNames(names, msg.config, stored);
      var w :| w in writes && w.name == n;
      var i :| 0 <= i < |writes| && writes[i] == w;
      assert o.effects[i] == UpdateSetting(LegacyNamespace, w);
    }
  }
}

=== FILE: import.dfy ===
/** The settings-import command. It reads its source and its target through two
    configuration handles that both name the current section, so every write stores
    the value the key already has. */
module ImportSettingsCommand {
  import opened JsValues
  import opened Settings
  import opened Effects
  import Reconciler

  const SourceSection := "cy-easy-codesnap"
  const TargetSection := "cy-easy-codesnap"

  /** `exec()`: one Global write per listed name, source value first, target value as
      the fallback; returns the resulting configuration and the writes issued. */
  function Exec(settings: Configuration, names: seq<string>): (r: (Configuration, seq<Effect>))
    ensures |r.1| == |names|
    ensures forall i :: 0 <= i < |names| ==>
      && r.1[i].UpdateSetting?
      && r.1[i].section == TargetSection
      && r.1[i].write.name == names[i]
      && r.1[i].write.scope == Global
      && r.1[i].write.value == Coalesce(Get(Section(settings, SourceSection), names[i]),
                                        Get(Section(settings, TargetSection), names[i]))
  {
    var source := Section(settings, SourceSection);
    var target := Section(settings, TargetSection);
    var writes := Reconciler.ImportWrites(names, source, target);
    (settings[TargetSection := ApplyWrites(target, writes)], UpdateEffects(TargetSection, writes))
  }

  /** Since source and target are the same section, the import changes no section's
      contents. */
  lemma ExecChangesNothing(settings: Configuration, names: seq<string>, section: string)
    requires WellFormed(Section(settings, TargetSection))
    ensures Section(Exec(settings, names).0, section) == Section(settings, section)
  {
    Reconciler.ImportSameSectionUnchanged(names, Section(settings, TargetSection));
  }

  /** Importing twice gives the same settings as importing once. */
  lemma ExecIdempotent(settings: Configuration, names: seq<string>)
    requires WellFormed(Section(settings, TargetSection))
    ensures var once := Exec(settings, names).0;
      Exec(once, names).0 == once
  {
    var s := Section(settings, TargetSection);
    Reconciler.ImportSameSectionUnchanged(names, s);
    var once := Exec(settings, names).0;
    assert Section(once, TargetSection) == s;
    Reconciler.ImportSameSectionUnchanged(names, s);
  }

  /** The section the import evidently means to read: the original CodeSnap
      extension's settings. */
  const LegacySection := "codesnap"

  /** The import reading its source from the legacy section. */
  function ExecFromLegacy(settings: Configuration, names: seq<string>): (r: (Configuration, seq<Effect>))
    ensures |r.1| == |names|
    ensures forall i :: 0 <= i < |names| ==>
      && r.1[i].UpdateSetting?
      && r.1[i].section == TargetSection
      && r.1[i].write.name == names[i]
      && r.1[i].write.scope == Global
  {
    var source := Section(settings, LegacySection);
    var target := Section(settings, TargetSection);
    var writes := Reconciler.ImportWrites(names, source, target);
    (settings[TargetSection := ApplyWrites(target, writes)], UpdateEffects(TargetSection, writes))
  }

  /** The corrected import never leaves an explicit `undefined` in the current
      section: a `??` that still yields `undefined` clears the key. */
  lemma ExecFromLegacyKeepsWellFormed(settings: Configuration, names: seq<string>)
    requires WellFormed(Section(settings, TargetSection))
    ensures WellFormed(Section(ExecFromLegacy(settings, names).0, TargetSection))
  {
    var source := Section(settings, LegacySection);
    var target := Section(settings, TargetSection);
    ApplyWritesWellFormed(target, Reconciler.ImportWrites(names, source, target));
  }

  /** After importing from the legacy section, every listed setting holds the legacy
      value when that is defined and keeps its own value otherwise; unlisted settings
      and the legacy section are untouched. */
  lemma ExecFromLegacyCopies(settings: Configuration, names: seq<string>, k: string)
    ensures var after := Section(ExecFromLegacy(settings, names).0, TargetSection);
      var legacy := Get(Section(settings, LegacySection), k);
      var own := Get(Section(settings, TargetSection), k);
      && (k in names && !legacy.Undefined? && !legacy.Null? ==> Get(after, k) == legacy)
      && (k in names && (legacy.Undefined? || legacy.Null?) ==> Get(after, k) == own)
      && (k !in names ==> Get(after, k) == own)
      && Section(ExecFromLegacy(settings, names).0, LegacySection) == Section(settings, LegacySection)
  {
    var source := Section(settings, LegacySection);
    var target := Section(settings, TargetSection);
    var writes := Reconciler.ImportWrites(names, source, target);
    if k in names {
      var i :| 0 <= i < |names| && names[i] == k;
      ApplyWritesSame(target, writes, k, Coalesce(Get(source, k), Get(target, k)));
    } else {
      ApplyWritesFrame(target, writes, k);
    }
  }

  /** As written, a legacy value never reaches the current section: with a legacy
      `showLineNumbers: false` and a current `true`, the import leaves `true`. */
  lemma ExecIgnoresLegacy(settings: Configuration)
    requires settings == map[LegacySection := map["showLineNumbers" := Bool(false)],
                             TargetSection := map["showLineNumbers" := Bool(true)]]
    ensures Get(Section(Exec(settings, ["showLineNumbers"]).0, TargetSection), "showLineNumbers") == Bool(true)
    ensures Get(Section(ExecFromLegacy(settings, ["showLineNumbers"]).0, TargetSection), "showLineNumbers") == Bool(false)
  {
    ExecChangesNothing(settings, ["showLineNumbers"], TargetSection);
    ExecFromLegacyCopies(settings, ["showLineNumbers"], "showLineNumbers");
  }
}

=== FILE: payload.dfy ===
/** The editor state the host reads and the update payload it assembles from it and
    from the settings store (`getConfig`, in the current and the legacy version),
    plus the update-kind wire names and the one-selection rule. */
module UpdatePayload {
  import opened Wrappers
  import opened Strings
  import opened JsValues
  import opened Settings

  datatype Position = Position(line: nat, character: nat)

  /** An editor selection; it is empty when it starts where it ends. */
  datatype Selection = Selection(start: Position, end: Position) {
    predicate IsEmpty() { start == end }
  }

  /** The active text editor: its primary selection, all its selections, its
      `options.tabSize`, and its document's URI (path and string form). */
  datatype Editor = Editor(
    selection: Selection,
    selections: seq<Selection>,
    tabSize: Value,
    documentPath: string,
    documentUri: string)

  /** What the host can see when it builds a payload: its settings, the active
      editor if any, and the workspace name if any. */
  datatype Host = Host(settings: Configuration, editor: Option<Editor>, workspaceName: Option<string>)

  /** `hasOneSelection`: exactly one selection, and it is not empty. */
  predicate HasOneSelection(selections: seq<Selection>)
    ensures HasOneSelection(selections) <==> |selections| == 1 && NonEmptyCount(selections) == 1
  {
    |selections| == 1 && !selections[0].IsEmpty()
  }

  /** How many of the selections are not empty. */
  function NonEmptyCount(selections: seq<Selection>): nat
  {
    if |selections| == 0 then 0
    else (if selections[0].IsEmpty() then 0 else 1) + NonEmptyCount(selections[1..])
  }

  datatype UpdateKind = Config | Text | Both

  function KindName(k: UpdateKind): string
  {
    match k
    case Config => "config"
    case Text => "text"
    case Both => "both"
  }

  /** The message type an update is posted under: `both` is `"update"`, any other
      kind is `"update-"` followed by the kind's name. */
  function WireType(k: UpdateKind): (t: string)
    ensures k == Both <==> t == "update"
    ensures k == Config <==> t == "update-config"
    ensures k == Text <==> t == "update-text"
  {
    if k == Both then "update" else "update-" + KindName(k)
  }

  /** The inverse of `WireType`: the kind an update message type stands for, if any. */
  function ParseWireType(t: string): Option<UpdateKind>
  {
    if t == "update" then Some(Both)
    else if t == "update-config" then Some(Config)
    else if t == "update-text" then Some(Text)
    else None
  }

  /** Distinct kinds go out under distinct types, and each type reads back as its kind. */
  lemma WireTypeRoundTrip(k: UpdateKind)
    ensures ParseWireType(WireType(k)) == Some(k)
  {
  }

  const EditorSettingNames: seq<string> := ["fontLigatures", "tabSize"]

  /** The editor section as `getSettings("editor", ["fontLigatures", "tabSize"])`
      reads it, with the active editor's own tab size replacing the setting. */
  function EditorSettings(h: Host): (r: map<string, Value>)
    ensures r.Keys == {"fontLigatures", "tabSize"}
    ensures r["fontLigatures"] == Get(Section(h.settings, "editor"), "fontLigatures")
    ensures h.editor.Some? ==> r["tabSize"] == h.editor.value.tabSize
    ensures h.editor.None? ==> r["tabSize"] == Get(Section(h.settings, "editor"), "tabSize")
  {
    var s := GetSettings(Section(h.settings, "editor"), EditorSettingNames);
    if h.editor.Some? then s["tabSize" := h.editor.value.tabSize] else s
  }

  /** The selection's start line, or 0 with no editor. */
  function StartLine(h: Host): nat
  {
    if h.editor.Some? then h.editor.value.selection.start.line else 0
  }

  /** `{...first, ...second, ...third}`: later objects win on shared keys. */
  function Spread(first: map<string, Value>, second: map<string, Value>, third: map<string, Value>): (r: map<string, Value>)
    ensures r.Keys == first.Keys + second.Keys + third.Keys
    ensures forall k :: k in third ==> r[k] == third[k]
    ensures forall k :: k in second && k !in third ==> r[k] == second[k]
    ensures forall k :: k in first && k !in second && k !in third ==> r[k] == first[k]
  {
    first + second + third
  }

  /** The section the current extension reads. */
  const Namespace := "cy-easy-codesnap"

  /** `templates` of the current payload: the document's file name and path, empty
      with no editor, and the workspace name or `""`. */
  function Templates(h: Host): Value
  {
    var path := if h.editor.Some? then h.editor.value.documentPath else "";
    var name := if h.editor.Some? then LastSegment(path) else "";
    Obj(map["fileName" := Str(name), "filePath" := Str(path), "workspace" := Str(h.workspaceName.GetOr(""))])
  }

  /** `getConfig()` (current version): editor settings, then the extension's settings
      over them, then `startLine` and `templates` over both. */
  function GetConfig(h: Host, names: seq<string>): (payload: map<string, Value>)
    ensures payload.Keys == {"fontLigatures", "tabSize", "startLine", "templates"} + (set n | n in names)
    ensures payload["startLine"] == Num(StartLine(h))
    ensures payload["templates"] == Templates(h)
    ensures forall n :: n in names && n != "startLine" && n != "templates" ==>
      payload[n] == Get(Section(h.settings, Namespace), n)
    ensures forall n :: n in EditorSettingNames && n !in names ==> payload[n] == EditorSettings(h)[n]
  {
    var extension := GetSettings(Section(h.settings, Namespace), names);
    var fixed := map["startLine" := Num(StartLine(h)), "templates" := Templates(h)];
    assert fixed.Keys == {"startLine", "templates"};
    Spread(EditorSettings(h), extension, fixed)
  }

  /** With no editor, the current payload starts at line 0 and its file name and path
      templates are empty. */
  lemma GetConfigWithoutEditor(h: Host, names: seq<string>)
    requires h.editor.None?
    ensures var p := GetConfig(h, names);
      && p["startLine"] == Num(0)
      && p["templates"].Obj?
      && p["templates"].fields["fileName"] == Str("")
      && p["templates"].fields["filePath"] == Str("")
  {
  }

  /** With an editor, the current payload starts at the selection's line, its path
      template is the document path, its file name template is the path's last
      `/`-segment, and the editor's own tab size is used unless an extension
      setting of that name overrides it. */
  lemma GetConfigWithEditor(h: Host, names: seq<string>)
    requires h.editor.Some?
    ensures var p := GetConfig(h, names);
      var path := h.editor.value.documentPath;
      && p["startLine"] == Num(h.editor.value.selection.start.line)
      && p["templates"].Obj?
      && p["templates"].fields["filePath"] == Str(path)
      && p["templates"].fields["fileName"] == Str(LastSegment(path))
      && ("tabSize" !in names ==> p["tabSize"] == h.editor.value.tabSize)
  {
  }

  /** The workspace template is the workspace name, or `""` when there is none. */
  lemma TemplatesWorkspace(h: Host, names: seq<string>)
    ensures var t := GetConfig(h, names)["templates"];
      t.Obj? && t.fields["workspace"] == Str(if h.workspaceName.Some? then h.workspaceName.value else "")
  {
  }

  /** The section the legacy extension reads. */
  const LegacyNamespace := "easy-codesnap"

  /** `${value}` of an optional string: `undefined` prints as `"undefined"`. */
  function TemplateString(s: Option<string>): string
  {
    if s.Some? then s.value else "undefined"
  }

  /** The legacy window title: empty with no editor, otherwise the workspace name, a
      dash, and the document's last path segment. */
  function WindowTitle(h: Host): string
  {
    if h.editor.Some?
    then TemplateString(h.workspaceName) + " - " + LastSegment(h.editor.value.documentPath)
    else ""
  }

  /** `getConfig()` (legacy version): editor settings, then the legacy section's
      settings over them, then `startLine` and `windowTitle` over both. */
  function LegacyGetConfig(h: Host, names: seq<string>): (payload: map<string, Value>)
    ensures payload.Keys == {"fontLigatures", "tabSize", "startLine", "windowTitle"} + (set n | n in names)
    ensures payload["startLine"] == Num(StartLine(h))
    ensures payload["windowTitle"] == Str(WindowTitle(h))
    ensures forall n :: n in names && n != "startLine" && n != "windowTitle" ==>
      payload[n] == Get(Section(h.settings, LegacyNamespace), n)
    ensures forall n :: n in EditorSettingNames && n !in names ==> payload[n] == EditorSettings(h)[n]
  {
    var extension := GetSettings(Section(h.settings, LegacyNamespace), names);
    var fixed := map["startLine" := Num(StartLine(h)), "windowTitle" := Str(WindowTitle(h))];
    assert fixed.Keys == {"startLine", "windowTitle"};
    Spread(EditorSettings(h), extension, fixed)
  }

  /** Legacy payload without an editor: line 0 and an empty title. With one: the title
      is the workspace name (`"undefined"` when there is none), `" - "`, and the
      document's file name. `ws` and `file` name the template's two parts, pinned by
      the requires, so that the ensures reads like the template literal. */
  lemma LegacyGetConfigTitle(h: Host, names: seq<string>, ws: string, file: string)
    requires h.editor.Some? ==> file == LastSegment(h.editor.value.documentPath)
    requires ws == (if h.workspaceName.Some? then h.workspaceName.value else "undefined")
    ensures var p := LegacyGetConfig(h, names);
      && (h.editor.None? ==> p["startLine"] == Num(0) && p["windowTitle"] == Str(""))
      && (h.editor.Some? ==> p["windowTitle"] == Str(ws + " - " + file))
  {
  }
}

=== FILE: reconciler.dfy ===
/** The two settings-synchronisation algorithms: saving a session config as the new
    default (diff-and-patch against the stored values) and the import command (an
    unconditional copy with fallback). Both read one snapshot of the section and
    then issue their writes, un-awaited, in list order; the model applies them to
    the store one after the other. */
module Reconciler {
  import opened JsValues
  import opened Settings

  /** The names `save-config` must write: listed, present in the session config, and
      strictly different from the stored value. */
  ghost function ChangedNames(names: seq<string>, config: map<string, Value>, stored: Store): set<string>
  {
    set n | n in names && n in config && !StrictEquals(Get(stored, n), config[n])
  }

  /** The `save-config` handler's writes, in the order of the recognised names. Each
      write is at Global scope and carries the session config's value; exactly the
      changed names are written, and nothing outside the recognised list. */
  function SaveAsDefault(names: seq<string>, config: map<string, Value>, stored: Store): (writes: seq<Write>)
    ensures |writes| <= |names|
    ensures forall i :: 0 <= i < |writes| ==>
      && writes[i].scope == Global
      && writes[i].name in names
      && writes[i].name in config
      && writes[i].value == config[writes[i].name]
    ensures (set w | w in writes :: w.name) == ChangedNames(names, config, stored)
    decreases |names|
  {
    if |names| == 0 then []
    else
      var rest := SaveAsDefault(names[1..], config, stored);
      var n := names[0];
      assert names == [n] + names[1..];
      if n in config && !StrictEquals(Get(stored, n), config[n]) then
        var writes := [Write(n, config[n], Global)] + rest;
        assert (set w | w in writes :: w.name) == {n} + (set w | w in rest :: w.name);
        assert ChangedNames(names, config, stored) == {n} + ChangedNames(names[1..], config, stored);
        writes
      else
        assert ChangedNames(names, config, stored) == ChangedNames(names[1..], config, stored);
        rest
  }

  /** After `save-config`, every recognised name the session config holds reads as the
      session's value, and every other key of the store is unchanged. */
  lemma SaveAsDefaultStore(names: seq<string>, config: map<string, Value>, stored: Store, k: string)
    ensures var after := ApplyWrites(stored, SaveAsDefault(names, config, stored));
      && (k in names && k in config ==> Get(after, k) == config[k])
      && (k !in names || k !in config ==> Get(after, k) == Get(stored, k))
  {
    var ws := SaveAsDefault(names, config, stored);
    if k in names && k in config && !StrictEquals(Get(stored, k), config[k]) {
      assert k in ChangedNames(names, config, stored);
      var w :| w in ws && w.name == k;
      ApplyWritesSame(stored, ws, k, config[k]);
    } else if k in names && k in config {
      assert k !in ChangedNames(names, config, stored);
      assert forall i :: 0 <= i < |ws| ==> ws[i].name != k by {
        forall i | 0 <= i < |ws| ensures ws[i].name != k {
          assert ws[i] in ws;
        }
      }
      ApplyWritesFrame(stored, ws, k);
    } else {
      ApplyWritesFrame(stored, ws, k);
    }
  }

  /** `SaveAsDefaultStore` for every key at once. */
  lemma SaveAsDefaultStoreAll(names: seq<string>, config: map<string, Value>, stored: Store)
    ensures var after := ApplyWrites(stored, SaveAsDefault(names, config, stored));
      && (forall k :: k in names && k in config ==> Get(after, k) == config[k])
      && (forall k :: k !in names || k !in config ==> Get(after, k) == Get(stored, k))
  {
    forall k {
      SaveAsDefaultStore(names, config, stored, k);
    }
  }

  /** Saving the same session config a second time writes nothing, as long as no
      recognised value is `NaN` or an object (those are never `===` to anything). */
  lemma SaveAsDefaultIdempotent(names: seq<string>, config: map<string, Value>, stored: Store)
    requires forall n :: n in names && n in config ==> !config[n].NaN? && !config[n].Obj?
    ensures var after := ApplyWrites(stored, SaveAsDefault(names, config, stored));
      SaveAsDefault(names, config, after) == []
  {
    var after := ApplyWrites(stored, SaveAsDefault(names, config, stored));
    forall n | n in names && n in config
      ensures StrictEquals(Get(after, n), config[n])
    {
      SaveAsDefaultStore(names, config, stored, n);
    }
    NoChangesNoWrites(names, config, after);
  }

  /** When every recognised session value is already stored, nothing is written. */
  lemma {:induction false} NoChangesNoWrites(names: seq<string>, config: map<string, Value>, stored: Store)
    requires forall n :: n in names && n in config ==> StrictEquals(Get(stored, n), config[n])
    ensures SaveAsDefault(names, config, stored) == []
    decreases |names|
  {
    if |names| > 0 {
      assert forall n :: n in names[1..] ==> n in names;
      NoChangesNoWrites(names[1..], config, stored);
    }
  }

  /** A `NaN` session value is rewritten on every save: the store then holds `NaN`,
      which is still `!==` to the session's `NaN`. */
  lemma SaveAsDefaultRewritesNaN()
    ensures var names := ["roundingLevel"];
      var config := map["roundingLevel" := NaN];
      var after := ApplyWrites(map[], SaveAsDefault(names, config, map[]));
      SaveAsDefault(names, config, after) == [Write("roundingLevel", NaN, Global)]
  {
  }

  /** With stored {a: 1, b: 2} and session {a: 1, b: 3, c: 4} where only a and b are
      recognised, exactly b is written, with 3. */
  lemma SaveAsDefaultExample()
    ensures SaveAsDefault(["a", "b"], map["a" := Num(1), "b" := Num(3), "c" := Num(4)],
                          map["a" := Num(1), "b" := Num(2)])
            == [Write("b", Num(3), Global)]
  {
  }

  /** The import command's writes: one Global write per listed name, in order, with
      no diff check; each value is the source's when that is neither `null` nor
      `undefined`, and the target's current value otherwise. */
  function ImportWrites(names: seq<string>, source: Store, target: Store): (writes: seq<Write>)
    ensures |writes| == |names|
    ensures forall i :: 0 <= i < |names| ==>
      && writes[i].name == names[i]
      && writes[i].scope == Global
      && (Get(source, names[i]).Undefined? || Get(source, names[i]).Null? ==> writes[i].value == Get(target, names[i]))
      && (!Get(source, names[i]).Undefined? && !Get(source, names[i]).Null? ==> writes[i].value == Get(source, names[i]))
    decreases |names|
  {
    if |names| == 0 then []
    else [Write(names[0], Coalesce(Get(source, names[0]), Get(target, names[0])), Global)]
         + ImportWrites(names[1..], source, target)
  }

  /** Falsy source values are copied, not replaced by the target's value. */
  lemma ImportCopiesFalsy(names: seq<string>, source: Store, target: Store, i: int)
    requires 0 <= i < |names|
    requires Get(source, names[i]) in {Bool(false), Num(0), Str("")}
    ensures ImportWrites(names, source, target)[i].value == Get(source, names[i])
  {
  }

  /** Reading and writing the same section, each write stores the key's current
      value, so the import leaves the store as it was. */
  lemma {:induction false} ImportSameSectionUnchanged(names: seq<string>, s: Store)
    requires WellFormed(s)
    ensures ApplyWrites(s, ImportWrites(names, s, s)) == s
    decreases |names|
  {
    if |names| > 0 {
      var n := names[0];
      var ws := ImportWrites(names, s, s);
      assert Coalesce(Get(s, n), Get(s, n)) == Get(s, n);
      assert Put(s, n, Get(s, n)) == s;
      assert ws[1..] == ImportWrites(names[1..], s, s);
      ImportSameSectionUnchanged(names[1..], s);
    }
  }

  /** Running the import command twice leaves the same section as running it once. */
  lemma ImportIdempotent(names: seq<string>, s: Store)
    requires WellFormed(s)
    ensures var once := ApplyWrites(s, ImportWrites(names, s, s));
      ApplyWrites(once, ImportWrites(names, once, once)) == once
  {
    ImportSameSectionUnchanged(names, s);
  }
}

=== FILE: sessionconfig.dfy ===
/** The webview's one-time-config controls: each input, select and button changes
    the session config (a working copy of the settings that is never persisted by
    itself), posts a message to the host, or re-runs a UI updater. */
module SessionConfigEvents {
  import opened Wrappers
  import opened JsValues
  import opened Settings

  /** The session config is a settings-shaped map, and `getSessionConfig()[key]` reads
      it like a section: a missing key is `undefined` (`Settings.Get`). */
  type SessionConfig = Store

  /** `setSessionConfig(patch)`: a shallow merge, the patch's keys winning. */
  function SetSessionConfig(session: SessionConfig, patch: map<string, Value>): (r: SessionConfig)
    ensures r.Keys == session.Keys + patch.Keys
    ensures forall k :: k in patch ==> r[k] == patch[k]
    ensures forall k :: k in session && k !in patch ==> r[k] == session[k]
  {
    session + patch
  }

  /** The rendering routines a control re-runs; their effect on the page is not
      modelled, only that they ran. */
  datatype Updater = UIUpdater | VarUpdater | LineNumbersUpdater | VisibilityUpdater | LockButtonUpdater

  datatype Checkbox =
    | ShowLineNumbers | RealLineNumbers | ShowWindowTitle | ShowWindowControls
    | RoundedCorners | TransparentBackground | EnableResizing

  /** The updater each checkbox is registered with (`UIUpdater` by default). */
  function CheckboxUpdater(c: Checkbox): Updater
  {
    match c
    case ShowLineNumbers => VarUpdater
    case RealLineNumbers => LineNumbersUpdater
    case ShowWindowTitle => VisibilityUpdater
    case ShowWindowControls => VisibilityUpdater
    case RoundedCorners => VarUpdater
    case TransparentBackground => UIUpdater
    case EnableResizing => UIUpdater
  }

  /** What the controls own: the session config and the link button's `data-state`
      and `title` attributes. */
  datatype Ui = Ui(session: SessionConfig, linkState: Option<string>, linkTitle: string)

  /** A user event on one of the controls. A checkbox carries its `data-configname`
      attribute (if it has one) and its `checked` state; a select carries its value. */
  datatype Event =
    | CheckboxChanged(box: Checkbox, configName: Option<string>, checked: bool)
    | ShutterActionChanged(value: string)
    | TargetChanged(value: string)
    | RoundingLevelChanged(value: string)
    | ResetClicked
    | SaveClicked
    | LockClicked
    | LinkClicked

  /** The outcome of one event: the new UI state, the messages posted to the host, and
      the updaters run, each in order. */
  datatype Step = Step(ui: Ui, posts: seq<map<string, Value>>, updaters: seq<Updater>)

  /** The property key a checkbox writes: its `data-configname`, and the string
      `"undefined"` when the attribute is missing (JavaScript's key coercion). */
  function CheckboxKey(configName: Option<string>): string
  {
    configName.GetOr("undefined")
  }

  /** `!getSessionConfig().isLocked`. */
  function ToggledLock(session: SessionConfig): Value
  {
    Bool(!Truthy(Get(session, "isLocked")))
  }

  /** The listeners registered by `addListeners`. */
  function Handle(ui: Ui, ev: Event): (s: Step)
    ensures ev.ResetClicked? ==> s.ui == ui && s.posts == [map["type" := Str("update-config")]] && s.updaters == []
    ensures ev.SaveClicked? ==>
      s.ui == ui && s.updaters == [] && s.posts == [map["type" := Str("save-config"), "config" := Obj(ui.session)]]
    ensures !ev.ResetClicked? && !ev.SaveClicked? ==> s.posts == []
    ensures !ev.LinkClicked? ==> s.ui.linkState == ui.linkState && s.ui.linkTitle == ui.linkTitle
  {
    match ev
    case CheckboxChanged(box, configName, checked) =>
      Step(ui.(session := SetSessionConfig(ui.session, map[CheckboxKey(configName) := Bool(checked)])),
           [], [CheckboxUpdater(box)])
    case ShutterActionChanged(value) =>
      Step(ui.(session := SetSessionConfig(ui.session, map["shutterAction" := Str(value)])), [], [])
    case TargetChanged(value) =>
      Step(ui.(session := SetSessionConfig(ui.session, map["target" := Str(value)])), [], [])
    case RoundingLevelChanged(value) =>
      Step(ui.(session := SetSessionConfig(ui.session, map["roundingLevel" := ToNumber(value)])), [], [VarUpdater])
    case ResetClicked =>
      Step(ui, [map["type" := Str("update-config")]], [])
    case SaveClicked =>
      Step(ui, [map["type" := Str("save-config"), "config" := Obj(ui.session)]], [])
    case LockClicked =>
      Step(ui.(session := SetSessionConfig(ui.session, map["isLocked" := ToggledLock(ui.session)])), [], [LockButtonUpdater])
    case LinkClicked =>
      var isLinked := ui.linkState == Some("linked");
      Step(Ui(SetSessionConfig(ui.session, map["isLinked" := Bool(!isLinked)]),
              Some(if !isLinked then "linked" else "unlinked"),
              if !isLinked then "Broken Connection to editor" else "Connect to editor"),
           [], [])
  }

  /** A checkbox sets only the key its `data-configname` names, to its checked state,
      and runs its updater once. */
  lemma CheckboxSetsOnlyItsKey(ui: Ui, box: Checkbox, configName: Option<string>, checked: bool)
    ensures var s := Handle(ui, CheckboxChanged(box, configName, checked));
      && Get(s.ui.session, CheckboxKey(configName)) == Bool(checked)
      && (forall k :: k != CheckboxKey(configName) ==> Get(s.ui.session, k) == Get(ui.session, k))
      && s.updaters == [CheckboxUpdater(box)]
  {
  }

  /** The shutter-action and target selects each set only their own key, to the
      selected value. */
  lemma SelectsSetOnlyTheirKey(ui: Ui, value: string)
    ensures var s := Handle(ui, ShutterActionChanged(value));
      && Get(s.ui.session, "shutterAction") == Str(value)
      && (forall k :: k != "shutterAction" ==> Get(s.ui.session, k) == Get(ui.session, k))
    ensures var s := Handle(ui, TargetChanged(value));
      && Get(s.ui.session, "target") == Str(value)
      && (forall k :: k != "target" ==> Get(s.ui.session, k) == Get(ui.session, k))
  {
  }

  /** The rounding-level select stores the number its value denotes: choosing the
      option written `DecimalString(n)` stores `n`. */
  lemma RoundingLevelIsNumber(ui: Ui, n: nat)
    ensures var s := Handle(ui, RoundingLevelChanged(DecimalString(n)));
      Get(s.ui.session, "roundingLevel") == Num(n) && s.updaters == [VarUpdater]
  {
    ToNumberOfDecimal(n);
  }

  /** The lock button flips `isLocked`: one click stores the negation of its
      truthiness, and two clicks restore a boolean value (any other value comes back
      as the boolean of its truthiness). */
  lemma LockTwice(ui: Ui)
    ensures var once := Handle(ui, LockClicked).ui;
      var twice := Handle(once, LockClicked).ui;
      && Get(once.session, "isLocked") == Bool(!Truthy(Get(ui.session, "isLocked")))
      && Get(twice.session, "isLocked") == Bool(Truthy(Get(ui.session, "isLocked")))
      && (Get(ui.session, "isLocked").Bool? ==> Get(twice.session, "isLocked") == Get(ui.session, "isLocked"))
  {
  }

  /** The link button's `data-state` agrees with the session's `isLinked`. */
  predicate LinkConsistent(ui: Ui)
  {
    (ui.linkState == Some("linked")) <==> (Get(ui.session, "isLinked") == Bool(true))
  }

  /** After a click on the link button, `data-state` is `"linked"` exactly when the
      session's `isLinked` is true, whatever the state before. */
  lemma LinkClickConsistent(ui: Ui)
    ensures LinkConsistent(Handle(ui, LinkClicked).ui)
  {
  }

  /** The events of a session, in order; the UI state after them and all messages
      posted along the way. */
  function Run(ui: Ui, events: seq<Event>): (r: (Ui, seq<map<string, Value>>))
    decreases |events|
  {
    if |events| == 0 then (ui, [])
    else
      var s := Handle(ui, events[0]);
      var rest := Run(s.ui, events[1..]);
      (rest.0, s.posts + rest.1)
  }

  /** A checkbox whose `data-configname` is `isLinked` is the only control other than
      the link button that touches `isLinked`. */
  predicate TouchesLink(ev: Event)
  {
    ev.CheckboxChanged? && CheckboxKey(ev.configName) == "isLinked"
  }

  /** Once the link button and `isLinked` agree, they keep agreeing through any events
      in which no checkbox names `isLinked`. */
  lemma {:induction false} RunKeepsLinkConsistent(ui: Ui, events: seq<Event>)
    requires LinkConsistent(ui)
    requires forall i :: 0 <= i < |events| ==> !TouchesLink(events[i])
    ensures LinkConsistent(Run(ui, events).0)
    decreases |events|
  {
    if |events| > 0 {
      var s := Handle(ui, events[0]);
      assert !TouchesLink(events[0]);
      assert LinkConsistent(s.ui);
      assert forall i :: 0 <= i < |events[1..]| ==> events[1..][i] == events[i + 1];
      RunKeepsLinkConsistent(s.ui, events[1..]);
    }
  }
}

=== FILE: settings.dfy ===
/** The host's settings store, reduced to one layer: each configuration section
    (`"editor"`, `"easy-codesnap"`, `"cy-easy-codesnap"`) is a map from setting name
    to its effective value. A write names the scope it targets; the single layer
    records its value whatever the scope. */
module Settings {
  import opened JsValues

  /** One configuration section. A missing key reads as `undefined`. */
  type Store = map<string, Value>

  /** Every section of the host's configuration, by section name. */
  type Configuration = map<string, Store>

  datatype Scope = Global | Workspace

  /** `section.update(name, value, scope)`. */
  datatype Write = Write(name: string, value: Value, scope: Scope)

  /** A store never holds `undefined` explicitly: writing it clears the key. */
  predicate WellFormed(s: Store)
  {
    forall k :: k in s ==> s[k] != Undefined
  }

  /** `section.get(name)`. */
  function Get(s: Store, name: string): Value
  {
    if name in s then s[name] else Undefined
  }

  /** `vscode.workspace.getConfiguration(section)`: an absent section is empty. */
  function Section(c: Configuration, section: string): Store
  {
    if section in c then c[section] else map[]
  }

  /** The effect of one write: afterwards the key reads as the written value and no
      other key changes. */
  function Put(s: Store, name: string, v: Value): (r: Store)
    ensures Get(r, name) == v
    ensures forall k :: k != name ==> Get(r, k) == Get(s, k)
    ensures WellFormed(s) ==> WellFormed(r)
  {
    if v == Undefined then s - {name} else s[name := v]
  }

  /** The writes applied one after the other, in order. */
  function ApplyWrites(s: Store, ws: seq<Write>): Store
    decreases |ws|
  {
    if |ws| == 0 then s
    else ApplyWrites(Put(s, ws[0].name, ws[0].value), ws[1..])
  }

  /** After a batch of writes, a key no write names keeps its value. */
  lemma {:induction false} ApplyWritesFrame(s: Store, ws: seq<Write>, k: string)
    requires forall i :: 0 <= i < |ws| ==> ws[i].name != k
    ensures Get(ApplyWrites(s, ws), k) == Get(s, k)
    decreases |ws|
  {
    if |ws| > 0 {
      ApplyWritesFrame(Put(s, ws[0].name, ws[0].value), ws[1..], k);
    }
  }

  /** After a batch of writes that names a key at least once, always with the same
      value, the key reads as that value. */
  lemma {:induction false} ApplyWritesSame(s: Store, ws: seq<Write>, k: string, v: Value)
    requires exists i :: 0 <= i < |ws| && ws[i].name == k
    requires forall i :: 0 <= i < |ws| && ws[i].name == k ==> ws[i].value == v
    ensures Get(ApplyWrites(s, ws), k) == v
    decreases |ws|
  {
    var s' := Put(s, ws[0].name, ws[0].value);
    if exists i :: 1 <= i < |ws| && ws[i].name == k {
      var i :| 1 <= i < |ws| && ws[i].name == k;
      assert ws[1..][i - 1].name == k;
      ApplyWritesSame(s', ws[1..], k, v);
    } else {
      assert ws[0].name == k;
      ApplyWritesFrame(s', ws[1..], k);
    }
  }

  /** Writes preserve well-formedness. */
  lemma {:induction false} ApplyWritesWellFormed(s: Store, ws: seq<Write>)
    requires WellFormed(s)
    ensures WellFormed(ApplyWrites(s, ws))
    decreases |ws|
  {
    if |ws| > 0 {
      ApplyWritesWellFormed(Put(s, ws[0].name, ws[0].value), ws[1..]);
    }
  }

  /** `getSettings(section, names)`: an object holding, for each listed name, the
      value the section gives it. */
  function GetSettings(s: Store, names: seq<string>): (r: map<string, Value>)
    ensures r.Keys == set n | n in names
    ensures forall n :: n in r ==> r[n] == Get(s, n)
  {
    map n | n in names :: Get(s, n)
  }
}

=== FILE: snapactions.dfy ===
/** The current host's snapshot actions: one handler per message type the webview
    sends. */
module SnapActions {
  import opened Wrappers
  import opened JsValues
  import opened Settings
  import opened UpdatePayload
  import opened Effects
  import Reconciler
  import HostExtension

  /** The messages `SnapActions` has a handler for, with their payloads. */
  datatype SnapMessage =
    | Save(data: string, format: string)
    | Copied
    | Ready
    | UpdateConfig
    | SaveConfig(config: map<string, Value>)
    | OpenSettings
    | CopySvg(data: string)

  const OpenSettingsCommand := "cy-easy-codesnap.openSettings"

  /** `save`: flash, then hand the artifact to the saver of its format; a format
      other than `svg` or `png` reaches no saver. */
  function SaveAction(data: string, format: string): (effects: seq<Effect>)
    ensures |effects| >= 1 && effects[0] == Flash
    ensures FlashCount(effects) == 1
    ensures format == "svg" ==> effects[1..] == [SaveSvg(data)]
    ensures format == "png" ==> effects[1..] == [SavePng(data)]
    ensures format != "svg" && format != "png" ==> effects == [Flash]
  {
    var saver := if format == "svg" then [SaveSvg(data)] else if format == "png" then [SavePng(data)] else [];
    assert FlashCount(saver) == 0;
    [Flash] + saver
  }

  /** `ready`: a full update for the active document, only when the active editor
      has exactly one non-empty selection. */
  function ReadyAction(h: Host): (effects: seq<Effect>)
    ensures h.editor.Some? && HasOneSelection(h.editor.value.selections) ==>
      effects == [RequestUpdate(Both, Some(h.editor.value.documentUri))]
    ensures !(h.editor.Some? && HasOneSelection(h.editor.value.selections)) ==> effects == []
  {
    if h.editor.Some? && HasOneSelection(h.editor.value.selections)
    then [RequestUpdate(Both, Some(h.editor.value.documentUri))]
    else []
  }

  /** The current `"ready"` handler acts in exactly the editor states in which the
      legacy one does; where the legacy one pushes a `"both"` payload itself, the
      current one asks for a `"both"` update of the same document. */
  lemma ReadyAgreesWithLegacy(st: HostExtension.HostState, names: seq<string>, msg: HostExtension.Message,
                              chosen: Option<string>, writeSucceeds: bool)
    requires msg.wireType == "ready"
    ensures var legacy := HostExtension.HandleMessage(st, names, msg, chosen, writeSucceeds).effects;
      && (legacy != [] <==> ReadyAction(st.host) != [])
      && (legacy != [] ==>
            && ("type" !in names ==> legacy[1].message["type"] == Str(WireType(Both)))
            && ReadyAction(st.host) == [RequestUpdate(Both, Some(st.host.editor.value.documentUri))])
  {
    assert HostExtension.Classify(msg.wireType) == HostExtension.Ready;
  }

  /** `"save-config"`: the diff-and-patch of the session config into the current
      section, followed by one confirmation. */
  function SaveConfigAction(settings: Configuration, names: seq<string>, config: map<string, Value>): (r: (Configuration, seq<Effect>))
    ensures |r.1| >= 1 && r.1[|r.1| - 1] == ShowInfo("Settings saved as default!")
    ensures forall i :: 0 <= i < |r.1| - 1 ==>
      r.1[i].UpdateSetting? && r.1[i].section == Namespace && r.1[i].write.scope == Global && r.1[i].write.name in names
    ensures forall k :: k in names && k in config ==> Get(Section(r.0, Namespace), k) == config[k]
    ensures forall k :: k !in names || k !in config ==>
      Get(Section(r.0, Namespace), k) == Get(Section(settings, Namespace), k)
    ensures forall section :: section != Namespace ==> Section(r.0, section) == Section(settings, section)
  {
    var stored := Section(settings, Namespace);
    var writes := Reconciler.SaveAsDefault(names, config, stored);
    Reconciler.SaveAsDefaultStoreAll(names, config, stored);
    assert forall i :: 0 <= i < |writes| ==> writes[i] in writes;
    (settings[Namespace := ApplyWrites(stored, writes)],
     UpdateEffects(Namespace, writes) + [ShowInfo("Settings saved as default!")])
  }

  /** Runs the handler for `msg` against the host's view and settings. `reduceSvg` is
      the SVG minifier, an opaque collaborator. Only `save-config` changes the
      settings. */
  function Handle(h: Host, names: seq<string>, msg: SnapMessage, reduceSvg: string -> string): (r: (Configuration, seq<Effect>))
    ensures !msg.SaveConfig? ==> r.0 == h.settings
    ensures msg.Copied? ==> r.1 == [ShowInfo("Image copied to clipboard!")]
    ensures msg.UpdateConfig? ==> r.1 == [RequestUpdate(Config, None)]
    ensures msg.OpenSettings? ==> r.1 == [ExecuteCommand(OpenSettingsCommand)]
    ensures msg.CopySvg? ==> r.1 == [WriteClipboard(reduceSvg(msg.data))]
    ensures msg.Save? ==> r.1 == SaveAction(msg.data, msg.format)
    ensures msg.Ready? ==> r.1 == ReadyAction(h)
    ensures msg.SaveConfig? ==> r == SaveConfigAction(h.settings, names, msg.config)
  {
    match msg
    case Save(data, format) => (h.settings, SaveAction(data, format))
    case Copied => (h.settings, [ShowInfo("Image copied to clipboard!")])
    case Ready => (h.settings, ReadyAction(h))
    case UpdateConfig => (h.settings, [RequestUpdate(Config, None)])
    case SaveConfig(config) => SaveConfigAction(h.settings, names, config)
    case OpenSettings => (h.settings, [ExecuteCommand(OpenSettingsCommand)])
    case CopySvg(data) => (h.settings, [WriteClipboard(reduceSvg(data))])
  }

  /** After `save-config`, every recognised name present in the session config holds
      the session's value, every other key of the section is unchanged, and other
      sections are untouched. */
  lemma SaveConfigResult(h: Host, names: seq<string>, config: map<string, Value>, reduceSvg: string -> string, k: string, section: string)
    ensures var after := Handle(h, names, SaveConfig(config), reduceSvg).0;
      && (k in names && k in config ==> Get(Section(after, Namespace), k) == config[k])
      && (k !in names || k !in config ==> Get(Section(after, Namespace), k) == Get(Section(h.settings, Namespace), k))
      && (section != Namespace ==> Section(after, section) == Section(h.settings, section))
  {
    Reconciler.SaveAsDefaultStore(names, config, Section(h.settings, Namespace), k);
  }

  /** `save-config` never writes a name outside the recognised list, even when the
      session config holds it. */
  lemma SaveConfigOnlyRecognised(h: Host, names: seq<string>, config: map<string, Value>, reduceSvg: string -> string)
    ensures var effects := Handle(h, names, SaveConfig(config), reduceSvg).1;
      forall e :: e in effects && e.UpdateSetting? ==>
        e.write.name in names && e.section == Namespace && e.write.scope == Global
  {
    var stored := Section(h.settings, Namespace);
    var writes := Reconciler.SaveAsDefault(names, config, stored);
    var effects := Handle(h, names, SaveConfig(config), reduceSvg).1;
    forall e | e in effects && e.UpdateSetting?
      ensures e.write.name in names && e.section == Namespace && e.write.scope == Global
    {
      var i :| 0 <= i < |effects| && effects[i] == e;
      assert i < |writes|;
      assert e.write == writes[i];
    }
  }

  /** Saving the same session config again writes nothing but still confirms (as long
      as no recognised value is `NaN` or an object). */
  lemma SaveConfigTwice(h: Host, names: seq<string>, config: map<string, Value>, reduceSvg: string -> string)
    requires forall n :: n in names && n in config ==> !config[n].NaN? && !config[n].Obj?
    ensures var once := Handle(h, names, SaveConfig(config), reduceSvg).0;
      Handle(h.(settings := once), names, SaveConfig(config), reduceSvg).1 == [ShowInfo("Settings saved as default!")]
  {
    var stored := Section(h.settings, Namespace);
    Reconciler.SaveAsDefaultIdempotent(names, config, stored);
  }

  /** Exactly one saver runs for `svg` and for `png`, and none for any other format;
      the flash always comes first. */
  lemma SaveCallsOneSaver(data: string, format: string)
    ensures var effects := SaveAction(data, format);
      var savers := set e | e in effects && (e.SaveSvg? || e.SavePng?);
      && (format == "svg" ==> savers == {SaveSvg(data)})
      && (format == "png" ==> savers == {SavePng(data)})
      && (format != "svg" && format != "png" ==> savers == {})
  {
    var effects := SaveAction(data, format);
    assert effects == [Flash] + effects[1..];
  }
}

=== FILE: strings.dfy ===
/** JavaScript string splitting and joining on a one-character separator, and the
    "last path segment" idiom `path.split("/").pop()`. */
module Strings {

  /** Number of occurrences of `c` in `s`. */
  function Count(s: string, c: char): nat
  {
    if |s| == 0 then 0
    else (if s[0] == c then 1 else 0) + Count(s[1..], c)
  }

  /** `s.split(sep)` for a one-character separator. JavaScript splits the empty
      string into one empty part, and a trailing separator yields a trailing
      empty part. */
  function Split(s: string, sep: char): (parts: seq<string>)
    ensures |parts| == Count(s, sep) + 1
    ensures forall i :: 0 <= i < |parts| ==> sep !in parts[i]
  {
    if |s| == 0 then [""]
    else
      var rest := Split(s[1..], sep);
      if s[0] == sep then [""] + rest
      else [[s[0]] + rest[0]] + rest[1..]
  }

  /** `parts.join(sep)`. */
  function Join(parts: seq<string>, sep: char): string
  {
    if |parts| == 0 then ""
    else if |parts| == 1 then parts[0]
    else parts[0] + [sep] + Join(parts[1..], sep)
  }

  /** Joining the parts of a split gives back the original string. */
  lemma {:induction false} JoinSplit(s: string, sep: char)
    ensures Join(Split(s, sep), sep) == s
  {
    if |s| == 0 {
    } else {
      var rest := Split(s[1..], sep);
      JoinSplit(s[1..], sep);
      if s[0] == sep {
        assert Split(s, sep) == [""] + rest;
        assert Join([""] + rest, sep) == "" + [sep] + Join(rest, sep);
        assert s == [s[0]] + s[1..];
      } else {
        var parts := Split(s, sep);
        assert parts == [[s[0]] + rest[0]] + rest[1..];
        if |rest| == 1 {
          assert Join(rest, sep) == rest[0];
          assert parts == [[s[0]] + rest[0]];
          assert s == [s[0]] + s[1..];
        } else {
          assert Join(rest, sep) == rest[0] + [sep] + Join(rest[1..], sep);
          assert parts[1..] == rest[1..];
          assert Join(parts, sep) == [s[0]] + rest[0] + [sep] + Join(rest[1..], sep);
          assert s == [s[0]] + s[1..];
        }
      }
    }
  }

  /** A part free of the separator, followed by the separator, splits off as the
      first part. */
  lemma {:induction false} SplitPrefix(p: string, sep: char, t: string)
    requires sep !in p
    ensures Split(p + [sep] + t, sep) == [p] + Split(t, sep)
  {
    if |p| == 0 {
      assert p + [sep] + t == [sep] + t;
      assert ([sep] + t)[1..] == t;
    } else {
      var s := p + [sep] + t;
      assert s[0] == p[0];
      assert s[1..] == p[1..] + [sep] + t;
      SplitPrefix(p[1..], sep, t);
      assert [p[0]] + p[1..] == p;
    }
  }

  /** A separator-free string splits into itself alone. */
  lemma {:induction false} SplitNoSeparator(p: string, sep: char)
    requires sep !in p
    ensures Split(p, sep) == [p]
  {
    if |p| != 0 {
      SplitNoSeparator(p[1..], sep);
      assert [p[0]] + p[1..] == p;
    }
  }

  /** Splitting is the inverse of joining separator-free parts: the parts of a split
      are the only separator-free sequence that joins back to the string. */
  lemma {:induction false} SplitJoin(parts: seq<string>, sep: char)
    requires |parts| >= 1
    requires forall i :: 0 <= i < |parts| ==> sep !in parts[i]
    ensures Split(Join(parts, sep), sep) == parts
  {
    if |parts| == 1 {
      SplitNoSeparator(parts[0], sep);
    } else {
      SplitJoin(parts[1..], sep);
      SplitPrefix(parts[0], sep, Join(parts[1..], sep));
      assert [parts[0]] + parts[1..] == parts;
    }
  }

  /** `path.split("/").pop()`: the text after the last `/`, or the whole path when it
      has none. `split` never returns an empty array, so `pop` always has a part. */
  function LastSegment(path: string): string
  {
    var parts := Split(path, '/');
    parts[|parts| - 1]
  }

  /** The last segment is a slash-free suffix of the path that either is the whole
      path or starts right after a `/`: the longest slash-free suffix. */
  lemma LastSegmentIsLongestSuffix(path: string)
    ensures var seg := LastSegment(path);
      && '/' !in seg
      && |seg| <= |path|
      && path[|path| - |seg|..] == seg
      && (|seg| == |path| || path[|path| - |seg| - 1] == '/')
  {
    var parts := Split(path, '/');
    JoinSplit(path, '/');
    JoinLast(parts, '/');
  }

  /** Splitting at one separator occurrence splits the two sides independently. */
  lemma {:induction false} SplitAppend(a: string, sep: char, b: string)
    ensures Split(a + [sep] + b, sep) == Split(a, sep) + Split(b, sep)
  {
    if |a| == 0 {
      assert a + [sep] + b == [sep] + b;
      assert ([sep] + b)[1..] == b;
    } else {
      var s := a + [sep] + b;
      assert s[0] == a[0];
      assert s[1..] == a[1..] + [sep] + b;
      SplitAppend(a[1..], sep, b);
    }
  }

  /** The last segment of `p + "/" + q`, for a slash-free `q`, is `q`. */
  lemma LastSegmentAfterSlash(p: string, q: string)
    requires '/' !in q
    ensures LastSegment(p + "/" + q) == q
  {
    assert p + "/" + q == p + ['/'] + q;
    SplitAppend(p, '/', q);
    SplitNoSeparator(q, '/');
  }

  /** A join ends with its last part, preceded by the separator when there is more
      than one part. */
  lemma {:induction false} JoinLast(parts: seq<string>, sep: char)
    requires |parts| >= 1
    ensures var j := Join(parts, sep); var last := parts[|parts| - 1];
      && |last| <= |j|
      && j[|j| - |last|..] == last
      && (|parts| == 1 ==> j == last)
      && (|parts| > 1 ==> |last| < |j| && j[|j| - |last| - 1] == sep)
  {
    if |parts| > 1 {
      JoinLast(parts[1..], sep);
      var rest := Join(parts[1..], sep);
      var j := parts[0] + [sep] + rest;
      assert j[|parts[0]| + 1..] == rest;
      assert j[|j| - |rest|..] == rest;
    }
  }

  /** `t` is a prefix of `s`. */
  predicate IsPrefix(t: string, s: string)
  {
    |t| <= |s| && s[..|t|] == t
  }

  /** `s.includes(t)`. */
  predicate Contains(s: string, t: string)
  {
    exists i :: 0 <= i <= |s| && IsPrefix(t, s[i..])
  }
}

=== FILE: values.dfy ===
/** The JavaScript values that settings, session configs and messages carry, with the
    three JavaScript operations the source applies to them: strict inequality `!==`,
    truthiness (`!x`, `if (x)`) and nullish coalescing `??`, plus `Number(string)`. */
module JsValues {

  /** A JSON-like JavaScript value. Numbers are integers: every numeric setting the
      source handles (tab size, rounding level, start line) is whole. */
  datatype Value =
    | Undefined
    | Null
    | Bool(b: bool)
    | Num(n: int)
    | NaN
    | Str(s: string)
    | Obj(fields: map<string, Value>)

  /** `a === b`. Objects compare by identity, and every object that reaches a
      comparison in the source is a fresh copy (a settings `get` result or a
      deserialized message field), so an object is never strictly equal to anything;
      `NaN` is not equal to itself. */
  predicate StrictEquals(a: Value, b: Value)
    ensures StrictEquals(a, b) ==> a == b
  {
    a == b && !a.NaN? && !a.Obj?
  }

  /** Strict equality is symmetric, and a value equals itself unless it is `NaN` or
      an object. */
  lemma StrictEqualsSymmetricReflexive(a: Value, b: Value)
    ensures StrictEquals(a, b) == StrictEquals(b, a)
    ensures StrictEquals(a, a) <==> !a.NaN? && !a.Obj?
  {
  }

  /** JavaScript truthiness. */
  predicate Truthy(v: Value)
  {
    match v
    case Undefined => false
    case Null => false
    case Bool(b) => b
    case Num(n) => n != 0
    case NaN => false
    case Str(s) => |s| > 0
    case Obj(_) => true
  }

  /** `a ?? b`: `b` only when `a` is `null` or `undefined`. */
  function Coalesce(a: Value, b: Value): (r: Value)
    ensures (a.Undefined? || a.Null?) ==> r == b
    ensures !(a.Undefined? || a.Null?) ==> r == a
  {
    if a.Undefined? || a.Null? then b else a
  }

  predicate IsDigit(c: char)
  {
    '0' <= c <= '9'
  }

  predicate AllDigits(s: string)
  {
    forall i :: 0 <= i < |s| ==> IsDigit(s[i])
  }

  /** Value of a string of decimal digits, most significant first. */
  function DigitsValue(s: string): nat
    requires AllDigits(s)
  {
    if |s| == 0 then 0
    else 10 * DigitsValue(s[..|s| - 1]) + (s[|s| - 1] as int - '0' as int)
  }

  /** `Number(s)` for the strings a `<select>` can hold: the empty string is 0, a
      string of decimal digits is its value, and anything else is `NaN`. */
  function ToNumber(s: string): (v: Value)
    ensures v.Num? || v.NaN?
    ensures v.NaN? <==> exists i :: 0 <= i < |s| && !IsDigit(s[i])
    ensures v.Num? ==> v.n >= 0
  {
    if AllDigits(s) then Num(DigitsValue(s)) else NaN
  }

  /** Decimal notation of a natural number, without leading zeros. */
  function DecimalString(n: nat): (s: string)
    ensures |s| >= 1 && AllDigits(s)
  {
    if n < 10 then [('0' as int + n) as char]
    else DecimalString(n / 10) + [('0' as int + n % 10) as char]
  }

  /** `Number` reads back the decimal notation of every natural number. */
  lemma {:induction false} ToNumberOfDecimal(n: nat)
    ensures ToNumber(DecimalString(n)) == Num(n)
  {
    DigitsOfDecimal(n);
  }

  lemma {:induction false} DigitsOfDecimal(n: nat)
    ensures DigitsValue(DecimalString(n)) == n
  {
    if n >= 10 {
      DigitsOfDecimal(n / 10);
      var s := DecimalString(n);
      assert s[..|s| - 1] == DecimalString(n / 10);
    }
  }
}

=== FILE: wrappers.dfy ===
/** The optional-value datatype used throughout the model for JavaScript's
    `undefined`-or-a-value fields. */
module Wrappers {

  datatype Option<+T> = None | Some(value: T) {

    /** The carried value, or `default` when there is none (JavaScript's `x ?? default`
        when `x` can only be `undefined` or a value). */
    function GetOr(default: T): T {
      match this
      case Some(v) => v
      case None => default
    }
  }
}
